=== FILE: README.md ===
# Student task dashboard — Dafny model of its client-side logic

The application is a React single-page front end for a student task
manager. Almost all of it is presentation; this project models the three
pieces of sequential logic in it:

* **Registration page** (`src/components/RegisterPage.jsx`): the five
  advisory password-strength checks recomputed on every keystroke, the
  camelCase-to-label transform that renders the requirement list, the
  form's input handling, and the submission, which posts the form as it is
  once the browser lets the submit event through (the strength checks never
  block it).
* **Login page and session credential** (`src/components/LoginPage.jsx`
  with the logout of `Dashboard.jsx`): the form update keyed by input name,
  the submission that stores a truthy token and only then redirects to the
  dashboard, the error text, and the `token` slot of local storage together
  with the `Authorization: Bearer …` header built from it.
* **Dashboard** (`src/components/Dashboard.jsx`): the task list, the
  new-task draft, the loading flag and the token slot as one immutable view
  state; every handler (`fetchTasks`, `handleAddTask`, `toggleTaskComplete`,
  `deleteTask`, `handleLogout`, the draft's change handlers) as a pure
  transition that takes the server replies it awaits as parameters and
  returns the next state plus the requests it issued; and the three
  counters (due today, completed, total) as projections of the list.

Files: `wrappers.dfy` (`Option`), `password.dfy` (module `Password`),
`register.dfy` (`Register`), `session.dfy` (`Session`), `login.dfy`
(`Login`), `tasks.dfy` (`Tasks`: records, draft, filter, counters),
`dashboard.dfy` (`Dashboard`: view state and handlers).

Modelling choices:

* A server reply is `Ok(data)` (a 2xx status with its parsed body),
  `NotOk(status)` or `Thrown` (network failure, or a body that does not
  parse). The login reply follows axios, which rejects on a non-2xx
  status: `Answered(token)` or `Refused(message)`.
* String truthiness in JavaScript is modelled as "non-empty".
* A missing token is read by the dashboard as `null`, so the header it
  sends is literally `Bearer null`; the model keeps this, and shows that a
  stored token spelled `null` cannot be told apart from no token.
* Task due dates are abstract day numbers and "today" is a parameter; the
  draft's due date stays the string value of the date input, because the
  add guard only tests it for emptiness.
* The registration form has no input bound to `confirmPassword`, so the
  model (like the page) always posts it empty; and the page writes
  `errors.submit` but renders only `errors.email`. Both are kept as
  written. `{submit: undefined}` and `{}` are the same `Errors(None)` here.
* The code tells a 2xx reply apart only from any other status and from a
  thrown error; it has no finer failure taxonomy, and the model follows the
  code. Toggle and delete send no `Authorization` header, unlike fetch and
  create; the model keeps that too.

## Model

| member | source | states |
|---|---|---|
| Password.Matches | src/components/RegisterPage.jsx:32-35 | a `/[class]/.test(s)` is true exactly when some character of `s` lies in the class |
| Password.ValidatePassword | src/components/RegisterPage.jsx:29-37 | `hasMinLength` iff length is at least 8; `hasUpperCase`/`hasLowerCase`/`hasNumber` iff some character is in `A`–`Z`/`a`–`z`/`0`–`9`; `hasSpecialChar` iff some character is one of `!@#$%^&*` |
| Password.EmptyPasswordIsInitial | src/components/RegisterPage.jsx:21-37 | validating the empty password gives the initial all-false record |
| Password.AppendMonotone | src/components/RegisterPage.jsx:31-35 | appending characters never turns a satisfied check off |
| Password.StrongExample | src/components/RegisterPage.jsx:31-35 | `Abc12345!` satisfies all five checks |
| Password.WeakExample | src/components/RegisterPage.jsx:31-35 | `abc` satisfies only the lower-case check |
| Password.SpaceBeforeCapitals | src/components/RegisterPage.jsx:137 | the `replace` step lengthens the key by exactly its number of capitals |
| Password.LowerCase | src/components/RegisterPage.jsx:137 | the `toLowerCase` step keeps the length and lowers each character in place |
| Password.Label | src/components/RegisterPage.jsx:137 | a label contains no capitals and is as long as the key plus its number of capitals |
| Password.LabelWithoutSpaces | src/components/RegisterPage.jsx:137 | for a key without spaces, deleting the spaces from its label gives the lower-cased key |
| Password.LabelAppend | src/components/RegisterPage.jsx:137 | the label of a concatenation is the concatenation of the labels |
| Password.NoCapitalsUnchanged | src/components/RegisterPage.jsx:137 | a key without capitals gets no space inserted |
| Password.WordLabel | src/components/RegisterPage.jsx:137 | a capitalised word becomes a space followed by the lower-cased word |
| Password.ThreeWordLabel | src/components/RegisterPage.jsx:137 | the label of a three-word camelCase key is its words lower-cased and separated by spaces |
| Password.MinLengthLabel | src/components/RegisterPage.jsx:21-27 | `hasMinLength` is shown as `has min length` |
| Password.UpperCaseLabel | src/components/RegisterPage.jsx:21-27 | `hasUpperCase` is shown as `has upper case` |
| Password.LowerCaseLabel | src/components/RegisterPage.jsx:21-27 | `hasLowerCase` is shown as `has lower case` |
| Password.SpecialCharLabel | src/components/RegisterPage.jsx:21-27 | `hasSpecialChar` is shown as `has special char` |
| Password.NumberLabel | src/components/RegisterPage.jsx:21-27 | `hasNumber` is shown as `has number` |
| Password.Requirements | src/components/RegisterPage.jsx:125-137 | the requirement list shows, in declaration order, `has min length`, `has upper case`, `has lower case`, `has number`, `has special char`, each with its check's value |
| Register.Step | src/components/RegisterPage.jsx:86-117 | an email input changes only the email; a password input changes only the password and the strength, recomputed from it; neither touches visibility; the eye button only flips visibility; errors and `confirmPassword` never change |
| Register.AlwaysInSync | src/components/RegisterPage.jsx:14-37 | from the first render, after any inputs, the strength record describes the current password |
| Register.Run | src/components/RegisterPage.jsx:86-117 | a sequence of inputs keeps the strength record in step, never touches the errors or `confirmPassword`, and leaves the password shown iff it started shown xor the eye button was pressed an odd number of times |
| Register.Submit | src/components/RegisterPage.jsx:39-56 | the body posted is the form as held; a 2xx reply navigates to `/login` and nothing else; any other reply sets `errors.submit` to the server's message and does not navigate |
| Register.SubmitIgnoresStrength | src/components/RegisterPage.jsx:39-56 | pages that differ only in their strength record (or visibility) submit the same body with the same navigation and errors |
| Register.WeakPasswordSubmitted | src/components/RegisterPage.jsx:39-56 | a password failing four checks is still posted and accepted |
| Session.Authorization | src/components/Dashboard.jsx:38-44 | the header is `Bearer ` followed by the stored token, or by `null` when none is stored |
| Session.CredentialRoundTrip | src/components/Dashboard.jsx:38-44 | the header carries the stored slot faithfully, for every slot but a token spelled `null` |
| Session.NullTokenLooksAbsent | src/components/Dashboard.jsx:38-42 | a stored `null` token yields the same header as no token |
| Session.Erase | src/components/Dashboard.jsx:118 | after erasing, the slot is empty and headers carry no credential |
| Session.Store | src/components/LoginPage.jsx:27 | after storing, the slot holds exactly the token, and headers present it |
| Login.HandleChange | src/components/LoginPage.jsx:12-17 | the field named by the input takes the value; every other field keeps its value; the key set only gains that name |
| Login.ChangesKeepShape | src/components/LoginPage.jsx:6-17 | edits through the page's two inputs keep the form exactly `{email, password}` |
| Login.ChangesCommute | src/components/LoginPage.jsx:12-17 | the last change of a field wins; changes of different fields commute |
| Login.ErrorText | src/components/LoginPage.jsx:31 | the error is the server's message when it is a non-empty string, otherwise `Login error`; it is never empty |
| Login.Submit | src/components/LoginPage.jsx:19-33 | the form is posted first; the token is stored iff the reply carries a truthy token, and then with that token; a truthy-token reply yields exactly post, store, redirect to `/dashboard`; any redirect follows a token write; a refusal yields exactly post and the error text, and leaves the slot; a token-less 2xx reply leaves the page |
| Login.SilentWithoutToken | src/components/LoginPage.jsx:26-29 | a 2xx reply without a truthy token changes nothing and shows nothing |
| Login.HasToken | src/components/LoginPage.jsx:26 | the reply is a 2xx answer whose `token` is present and truthy (a non-empty string) |
| Tasks.ApplyEdit | src/components/Dashboard.jsx:210-241 | a draft edit sets the named field and keeps the other three |
| Tasks.EditUndo | src/components/Dashboard.jsx:210-241 | editing a field back to its old value restores the draft |
| Tasks.Filter | src/components/Dashboard.jsx:163-167 | the filtered list holds exactly the tasks that pass, and is no longer than the list |
| Tasks.FilterAppend | src/components/Dashboard.jsx:163-167 | filtering distributes over concatenation |
| Tasks.FilterKeepsAll | src/components/Dashboard.jsx:181 | the filter keeps the whole list iff every task passes |
| Tasks.DueToday | src/components/Dashboard.jsx:163-167 | the due-today count is at most the total, the length of the list |
| Tasks.Completed | src/components/Dashboard.jsx:181 | the completed count is at most the total, the length of the list |
| Tasks.DueTodayAppend | src/components/Dashboard.jsx:163-167 | one more task adds one to the due-today count iff it is due today; a day before or after adds nothing |
| Tasks.CompletedAppend | src/components/Dashboard.jsx:181 | one more task adds one to the completed count iff it is completed |
| Tasks.AllCompleted | src/components/Dashboard.jsx:181-193 | completed equals total iff every task is completed |
| Tasks.FilterSplits | src/components/Dashboard.jsx:181-193 | every task is counted by exactly one of "completed" and "open" |
| Tasks.Total | src/components/Dashboard.jsx:193 | the total is the number of completed tasks plus the number of open ones |
| Tasks.NoneCompleted | src/components/Dashboard.jsx:181 | completed is zero iff no task is completed |
| Dashboard.Refresh | src/components/Dashboard.jsx:35-60 | a 2xx fetch replaces the list with the fetched one exactly; a non-2xx or thrown fetch leaves it; loading ends in every case; draft and token are untouched |
| Dashboard.Initial | src/components/Dashboard.jsx:14-21 | the view mounts with no tasks, loading, the given token slot, and the default draft, which the add guard rejects |
| Dashboard.RefreshIdempotent | src/components/Dashboard.jsx:53-54 | refreshing twice with the same reply equals refreshing once |
| Dashboard.RefreshSameData | src/components/Dashboard.jsx:53-54 | two fetches returning the same data leave the same list |
| Dashboard.ListRequest | src/components/Dashboard.jsx:38-44 | the fetch is a list request whose header presents the slot stored when it is sent (for every slot but a token spelled `null`) |
| Dashboard.AddTask | src/components/Dashboard.jsx:62-87 | an empty title or due date issues no request and changes nothing; otherwise the draft is posted with the token; on 2xx the list is re-fetched and then the draft reset to `{"", "", medium, ""}`; on a non-2xx or thrown POST only the POST was issued and the state, draft included, stays |
| Dashboard.Toggle | src/components/Dashboard.jsx:89-102 | sends the negation of the given `completed` flag without a token; the list changes only through the re-fetch that follows a 2xx reply |
| Dashboard.Delete | src/components/Dashboard.jsx:104-115 | sends the delete without a token; the list changes only through the re-fetch that follows a 2xx reply |
| Dashboard.Logout | src/components/Dashboard.jsx:117-120 | the token slot becomes empty, nothing else in the view changes (list, draft, loading flag), no request is sent, and the page goes to `/` |
| Dashboard.CanSubmit | src/components/Dashboard.jsx:63 | the add guard: title and due date both non-empty |
| Dashboard.Handle | src/components/Dashboard.jsx:31-33 | mount sends one fetch and applies its reply; a draft `onChange` (lines 210-241) sends nothing and edits the draft; only logout navigates; the rest of its properties are `StoreOnlyFromServer`, `HandleFrames` and `DraftEditIsLocal` |
| Dashboard.StoreOnlyFromServer | src/components/Dashboard.jsx:31-115 | after any event the list is the old one or exactly the data of a 2xx re-fetch that the event issued |
| Dashboard.HandleFrames | src/components/Dashboard.jsx:62-120 | only logout changes the token slot; only a draft edit or a successful add changes the draft |
| Dashboard.DraftEditIsLocal | src/components/Dashboard.jsx:210-241 | a draft edit changes only the edited field and nothing outside the draft |
| Dashboard.LogoutThenFetchUnauthenticated | src/components/Dashboard.jsx:117-120 | after logout the next fetch sends `Bearer null`, which carries no credential |
| Dashboard.AddAfterFilling | src/components/Dashboard.jsx:62-87 | typing a title and a date and adding, with 2xx replies, posts those values, installs the fetched list and resets the draft |
| Dashboard.LoginThenFetchPresentsToken | src/components/LoginPage.jsx:26-27 | after a login whose reply carries a token, the dashboard's next fetch presents exactly that token |

## Left out

- JSX rendering, styling, icons, `priorityColors`, the home and portfolio pages and the routing table: presentation with no statable behaviour.
- `fetch`, `axios`, `localStorage`, `navigate`, `window.location` and `console.error`: replaced by reply parameters, the `Slot` state field, and navigation/effect values in the results.
- Interleaving of overlapping requests (replies arriving out of order): each handler is modelled as running to completion with its replies given.
- JavaScript `Date` parsing and time zones in the due-today comparison: due dates are abstract day numbers and "today" is a parameter.
- The exception path of the registration submit (`RegisterPage.jsx` lines 58-62): its result depends on error-object shapes from a library outside this model.
- The growth of the list by one per create-then-refresh: that depends on what the server stores and returns, which is outside the client.
- Password.ValidatePassword: counts the password's length in characters, where JavaScript counts UTF-16 code units; the two differ only for characters outside the Basic Multilingual Plane.
- Password.LowerCase: lowers ASCII capitals only, where `toLowerCase` lowers all of Unicode; the keys it is applied to are ASCII identifiers.
- Browser constraint validation: `required` on both login inputs and `type="email"` on the login and registration email inputs stop the submit event before `handleSubmit` runs, so an empty login field or a malformed non-empty email never posts. `Login.Submit` and `Register.Submit` model the handler once it runs and post any form; the browser's gate in front of them is not modelled.
- Task priorities outside `high`/`medium`/`low` from the server, and non-string token or message values in replies: the datatypes admit only well-typed values.

=== FILE: dashboard.dfy ===
/**
  The student dashboard as a state machine. Each handler of the page becomes
  a pure transition: it takes the view state and every server reply the
  handler awaits, and returns the next view state together with the requests
  it issued, in order. Every mutation is "fire, then on success re-fetch":
  the task list only ever changes by being replaced with a fetched list.
 */
module Dashboard {
  import opened Wrappers
  import opened Tasks
  import Session
  import Login

  /** A server reply: a 2xx response with its parsed body, any other status, or a thrown error. */
  datatype Reply<T> = Ok(data: T) | NotOk(status: int) | Thrown

  /** The requests the dashboard sends, with the `Authorization` header where one is attached. */
  datatype Request =
    | ListTasks(authorization: string)
    | CreateTask(authorization: string, body: Draft)
    | SetCompleted(id: int, completed: bool)
    | DeleteTask(id: int)

  /** The page state: the task list, the new-task draft, the loading flag and the persisted token. */
  datatype View = View(tasks: seq<Task>, draft: Draft, loading: bool, slot: Session.Slot)

  /** A transition's result: the next state, the requests in the order issued, and any navigation. */
  datatype Outcome = Outcome(view: View, requests: seq<Request>, navigate: Option<string>)

  /** The state on mount, before the first fetch returns. */
  function Initial(slot: Session.Slot): (r: View)
    ensures Total(r.tasks) == 0 && r.loading && r.slot == slot
    ensures r.draft == DefaultDraft && !CanSubmit(r.draft)
  {
    View([], DefaultDraft, true, slot)
  }

  /**
    `fetchTasks`, given the reply to its `GET`: a 2xx reply replaces the list
    with the fetched one; anything else is logged and leaves the list; the
    loading flag is cleared either way.
   */
  function Refresh(v: View, reply: Reply<seq<Task>>): (r: View)
    ensures !r.loading
    ensures reply.Ok? ==> r.tasks == reply.data
    ensures !reply.Ok? ==> r.tasks == v.tasks
    ensures r.draft == v.draft && r.slot == v.slot
  {
    match reply
    case Ok(fetched) => v.(tasks := fetched, loading := false)
    case _ => v.(loading := false)
  }

  /** The request `fetchTasks` sends, with the token read at call time: it presents the stored slot. */
  function ListRequest(v: View): (q: Request)
    ensures q.ListTasks?
    ensures v.slot != Some("null") ==> Session.Credential(q.authorization) == v.slot
  {
    Session.CredentialRoundTrip(if v.slot == Some("null") then None else v.slot);
    ListTasks(Session.Authorization(v.slot))
  }

  /** A refresh depends only on the reply: refreshing again with the same reply changes nothing. */
  lemma RefreshIdempotent(v: View, reply: Reply<seq<Task>>)
    ensures Refresh(Refresh(v, reply), reply) == Refresh(v, reply)
  {}

  /** Two views fetching the same server data end with the same list. */
  lemma RefreshSameData(v: View, w: View, data: seq<Task>)
    ensures Refresh(v, Ok(data)).tasks == Refresh(w, Ok(data)).tasks
  {}

  /** The add guard: both the title and the due date must be non-empty. */
  predicate CanSubmit(d: Draft) {
    d.title != "" && d.dueDate != ""
  }

  /**
    `handleAddTask`, given the reply to the `POST` and the reply to the
    re-fetch that follows a 2xx `POST`.
   */
  function AddTask(v: View, create: Reply<()>, list: Reply<seq<Task>>): (r: Outcome)
    // the guard: an incomplete draft issues nothing and changes nothing
    ensures !CanSubmit(v.draft) ==> r == Outcome(v, [], None)
    ensures CanSubmit(v.draft) ==>
      |r.requests| >= 1 && r.requests[0] == CreateTask(Session.Authorization(v.slot), v.draft)
    // success: re-fetch, then reset the draft to the defaults
    ensures CanSubmit(v.draft) && create.Ok? ==>
      && r.requests == [CreateTask(Session.Authorization(v.slot), v.draft), ListRequest(v)]
      && r.view == Refresh(v, list).(draft := DefaultDraft)
    // failure: the draft and everything else stay, so the user can retry
    ensures CanSubmit(v.draft) && !create.Ok? ==> r.requests == [CreateTask(Session.Authorization(v.slot), v.draft)]
    ensures !create.Ok? ==> r.view == v
    ensures r.view.slot == v.slot && r.navigate.None?
  {
    if !CanSubmit(v.draft) then Outcome(v, [], None)
    else
      var post := CreateTask(Session.Authorization(v.slot), v.draft);
      if create.Ok? then
        Outcome(Refresh(v, list).(draft := DefaultDraft), [post, ListRequest(v)], None)
      else
        Outcome(v, [post], None)
  }

  /**
    `toggleTaskComplete(id, completed)`: send the negated flag, with no
    `Authorization` header, and re-fetch on a 2xx reply.
   */
  function Toggle(v: View, id: int, completed: bool, put: Reply<()>, list: Reply<seq<Task>>): (r: Outcome)
    ensures |r.requests| >= 1 && r.requests[0] == SetCompleted(id, !completed)
    ensures put.Ok? ==> r.requests == [SetCompleted(id, !completed), ListRequest(v)] && r.view == Refresh(v, list)
    ensures !put.Ok? ==> r.requests == [SetCompleted(id, !completed)] && r.view == v
    ensures r.navigate.None?
  {
    var q := SetCompleted(id, !completed);
    if put.Ok? then Outcome(Refresh(v, list), [q, ListRequest(v)], None)
    else Outcome(v, [q], None)
  }

  /** `deleteTask(id)`: send the delete, with no `Authorization` header, and re-fetch on a 2xx reply. */
  function Delete(v: View, id: int, del: Reply<()>, list: Reply<seq<Task>>): (r: Outcome)
    ensures |r.requests| >= 1 && r.requests[0] == DeleteTask(id)
    ensures del.Ok? ==> r.requests == [DeleteTask(id), ListRequest(v)] && r.view == Refresh(v, list)
    ensures !del.Ok? ==> r.requests == [DeleteTask(id)] && r.view == v
    ensures r.navigate.None?
  {
    if del.Ok? then Outcome(Refresh(v, list), [DeleteTask(id), ListRequest(v)], None)
    else Outcome(v, [DeleteTask(id)], None)
  }

  /** `handleLogout`: erase the token and go to the home page. */
  function Logout(v: View): (r: Outcome)
    ensures r.view == v.(slot := None)
    ensures r.requests == [] && r.navigate == Some("/")
  {
    Outcome(v.(slot := Session.Erase(v.slot)), [], Some("/"))
  }

  /** Every user event of the dashboard, carrying the replies its handler awaits. */
  datatype Event =
    | Mounted(list: Reply<seq<Task>>)
    | AddClicked(create: Reply<()>, list: Reply<seq<Task>>)
    | CheckboxChanged(id: int, completed: bool, put: Reply<()>, list: Reply<seq<Task>>)
    | DeleteClicked(id: int, del: Reply<()>, list: Reply<seq<Task>>)
    | DraftChanged(edit: DraftEdit)
    | LogoutClicked

  /** The dashboard's transition function. */
  function Handle(v: View, e: Event): (r: Outcome)
    ensures e.Mounted? ==> r.requests == [ListRequest(v)] && r.view == Refresh(v, e.list)
    ensures e.DraftChanged? ==> r.requests == [] && r.view == v.(draft := ApplyEdit(v.draft, e.edit))
    ensures r.navigate.Some? <==> e.LogoutClicked?
  {
    match e
    case Mounted(list) => Outcome(Refresh(v, list), [ListRequest(v)], None)
    case AddClicked(create, list) => AddTask(v, create, list)
    case CheckboxChanged(id, completed, put, list) => Toggle(v, id, completed, put, list)
    case DeleteClicked(id, del, list) => Delete(v, id, del, list)
    case DraftChanged(edit) => Outcome(v.(draft := ApplyEdit(v.draft, edit)), [], None)
    case LogoutClicked => Logout(v)
  }

  /** The list reply an event carries, if any. */
  function ListReplyOf(e: Event): Option<Reply<seq<Task>>> {
    match e
    case Mounted(list) => Some(list)
    case AddClicked(_, list) => Some(list)
    case CheckboxChanged(_, _, _, list) => Some(list)
    case DeleteClicked(_, _, list) => Some(list)
    case _ => None
  }

  /**
    Fire-and-refetch: no event edits the task list in place. After any event
    the list is either the old one or exactly the data of a 2xx re-fetch,
    and it changes only when a re-fetch was actually issued.
   */
  lemma StoreOnlyFromServer(v: View, e: Event)
    ensures var r := Handle(v, e);
      || r.view.tasks == v.tasks
      || (ListReplyOf(e).Some? && ListReplyOf(e).value.Ok? && r.view.tasks == ListReplyOf(e).value.data
          && ListRequest(v) in r.requests)
  {}

  /** Only logout touches the token slot, and only a draft edit or a successful add touches the draft. */
  lemma HandleFrames(v: View, e: Event)
    ensures !e.LogoutClicked? ==> Handle(v, e).view.slot == v.slot
    ensures !e.DraftChanged? && !(e.AddClicked? && CanSubmit(v.draft) && e.create.Ok?) ==>
      Handle(v, e).view.draft == v.draft
  {}

  /** Editing one draft field changes only that field, and nothing outside the draft. */
  lemma DraftEditIsLocal(v: View, edit: DraftEdit)
    ensures var r := Handle(v, DraftChanged(edit)).view;
      && r.tasks == v.tasks && r.loading == v.loading && r.slot == v.slot
      && (!edit.EditTitle? ==> r.draft.title == v.draft.title)
      && (!edit.EditDueDate? ==> r.draft.dueDate == v.draft.dueDate)
      && (!edit.EditPriority? ==> r.draft.priority == v.draft.priority)
      && (!edit.EditSubject? ==> r.draft.subject == v.draft.subject)
  {}

  /** After logout the next fetch carries no credential: the header reads `Bearer null`. */
  lemma LogoutThenFetchUnauthenticated(v: View)
    ensures var w := Logout(v).view;
      && ListRequest(w) == ListTasks("Bearer null")
      && Session.Credential(ListRequest(w).authorization).None?
  {}

  /** Filling in both required fields and adding, on a server that answers 2xx twice, leaves a fresh draft. */
  lemma AddAfterFilling(v: View, title: string, day: string, list: seq<Task>)
    requires title != "" && day != ""
    ensures var filled := Handle(Handle(v, DraftChanged(EditTitle(title))).view, DraftChanged(EditDueDate(day))).view;
      var r := Handle(filled, AddClicked(Ok(()), Ok(list)));
      && r.requests[0].CreateTask? && r.requests[0].body.title == title && r.requests[0].body.dueDate == day
      && r.view.tasks == list && r.view.draft == DefaultDraft && !r.view.loading
  {}

  /** A successful login hands the dashboard's next fetch exactly the token the server returned. */
  lemma LoginThenFetchPresentsToken(page: Login.Page, reply: Login.Reply, v: View)
    requires Login.HasToken(reply) && reply.token.value != "null"
    ensures var slot := Login.Submit(page, reply).page.slot;
      Session.Credential(ListRequest(v.(slot := slot)).authorization) == Some(reply.token.value)
  {}
}

=== FILE: login.dfy ===
/**
  The login page: a form keyed by input name, and a submission that stores
  the returned token and leaves for the dashboard, or shows an error.
 */
module Login {
  import opened Wrappers
  import Session

  /** The form object; inputs write it through their `name` attribute, so any key may appear. */
  type FormData = map<string, string>

  const InitialForm: FormData := map["email" := "", "password" := ""]

  const LoginUrl := "http://localhost:3000/api/auth/login"
  const DashboardPath := "/dashboard"
  const DefaultError := "Login error"

  /** `handleChange`: the field named by the input takes its value; every other field stays. */
  function HandleChange(form: FormData, name: string, value: string): (r: FormData)
    ensures r.Keys == form.Keys + {name}
    ensures r[name] == value
    ensures forall k :: k in form && k != name ==> r[k] == form[k]
  {
    form[name := value]
  }

  /** The form's two inputs never add a key: the form stays exactly `{email, password}`. */
  lemma {:induction false} ChangesKeepShape(form: FormData, edits: seq<(string, string)>)
    requires form.Keys == InitialForm.Keys
    requires forall i :: 0 <= i < |edits| ==> edits[i].0 in InitialForm
    ensures ApplyChanges(form, edits).Keys == InitialForm.Keys
  {
    if edits != [] {
      ChangesKeepShape(HandleChange(form, edits[0].0, edits[0].1), edits[1..]);
    }
  }

  /** The form after a sequence of `(name, value)` change events, oldest first. */
  function ApplyChanges(form: FormData, edits: seq<(string, string)>): FormData
    decreases |edits|
  {
    if edits == [] then form else ApplyChanges(HandleChange(form, edits[0].0, edits[0].1), edits[1..])
  }

  /** The last change to a field wins; changes to different fields commute. */
  lemma ChangesCommute(form: FormData, a: string, x: string, b: string, y: string)
    ensures a != b ==> HandleChange(HandleChange(form, a, x), b, y) == HandleChange(HandleChange(form, b, y), a, x)
    ensures HandleChange(HandleChange(form, a, x), a, y) == HandleChange(form, a, y)
  {}

  /**
    The outcome of `axios.post`: a 2xx answer whose body may hold a `token`,
    or a rejection whose response body may hold a `message` (absent when no
    response arrived at all).
   */
  datatype Reply = Answered(token: Option<string>) | Refused(message: Option<string>)

  /** The observable effects of a submission, in the order they happen. */
  datatype Effect =
    | Post(url: string, body: FormData)
    | StoreToken(token: string)
    | Redirect(path: string)
    | ShowError(message: string)

  datatype Page = Page(form: FormData, error: string, slot: Session.Slot)

  datatype Outcome = Outcome(page: Page, effects: seq<Effect>)

  /** The reply carries a token JavaScript treats as true. */
  predicate HasToken(reply: Reply) {
    reply.Answered? && reply.token.Some? && Session.Truthy(reply.token.value)
  }

  /** `err.response?.data?.message || "Login error"`. */
  function ErrorText(message: Option<string>): (r: string)
    ensures Session.Truthy(r)
    ensures message.Some? && Session.Truthy(message.value) ==> r == message.value
    ensures r != message.GetOr("") ==> r == DefaultError
  {
    match message
    case Some(m) => if Session.Truthy(m) then m else DefaultError
    case None => DefaultError
  }

  /** `handleSubmit`. */
  function Submit(page: Page, reply: Reply): (r: Outcome)
    ensures |r.effects| >= 1 && r.effects[0] == Post(LoginUrl, page.form)
    ensures r.page.form == page.form
    // the slot is written exactly when the reply carries a truthy token, and then with that token
    ensures (exists i :: 0 <= i < |r.effects| && r.effects[i].StoreToken?) <==> HasToken(reply)
    ensures HasToken(reply) ==> r.page.slot == Some(reply.token.value)
    ensures !HasToken(reply) ==> r.page.slot == page.slot
    // the redirect to the dashboard follows the token write
    ensures forall i :: 0 <= i < |r.effects| && r.effects[i].Redirect? ==>
      r.effects[i].path == DashboardPath && exists j :: 0 <= j < i && r.effects[j].StoreToken?
    // an error is shown exactly on a refusal
    ensures reply.Refused? <==> exists i :: 0 <= i < |r.effects| && r.effects[i].ShowError?
    ensures reply.Refused? ==> r.page.error == ErrorText(reply.message)
    ensures reply.Answered? ==> r.page.error == page.error
    // the exact effect sequences of the two outcomes that do something
    ensures HasToken(reply) ==>
      r.effects == [Post(LoginUrl, page.form), StoreToken(reply.token.value), Redirect(DashboardPath)]
    ensures reply.Refused? ==> r.effects == [Post(LoginUrl, page.form), ShowError(ErrorText(reply.message))]
  {
    var post := Post(LoginUrl, page.form);
    match reply
    case Answered(token) =>
      if HasToken(reply) then
        var r := Outcome(page.(slot := Session.Store(page.slot, token.value)),
                         [post, StoreToken(token.value), Redirect(DashboardPath)]);
        assert r.effects[1].StoreToken?;
        r
      else
        Outcome(page, [post])
    case Refused(message) =>
      var text := ErrorText(message);
      var r := Outcome(page.(error := text), [post, ShowError(text)]);
      assert r.effects[1].ShowError?;
      r
  }

  /** A token-less 2xx answer changes nothing at all: no token, no redirect, no error. */
  lemma SilentWithoutToken(page: Page, reply: Reply)
    requires reply.Answered? && !HasToken(reply)
    ensures Submit(page, reply) == Outcome(page, [Post(LoginUrl, page.form)])
  {}
}

=== FILE: password.dfy ===
/**
  The advisory password-strength checks of the registration page and the
  labels under which the page lists them.

  Characters are Dafny `char`s; the regular-expression classes the page tests
  against are ASCII ranges, so they are written out as comparisons here.
 */
module Password {

  /** The five independent checks, in the order the page declares (and lists) them. */
  datatype Strength = Strength(
    hasMinLength: bool,
    hasUpperCase: bool,
    hasLowerCase: bool,
    hasNumber: bool,
    hasSpecialChar: bool)

  /** The record the page holds before the first keystroke: every check false. */
  const InitialStrength := Strength(false, false, false, false, false)

  /** The minimum password length the page asks for. */
  const MinLength := 8

  /** The character class `[!@#$%^&*]`. */
  const SpecialChars := "!@#$%^&*"

  predicate IsUpper(c: char) { 'A' <= c <= 'Z' }
  predicate IsLower(c: char) { 'a' <= c <= 'z' }
  predicate IsDigit(c: char) { '0' <= c <= '9' }
  predicate IsSpecial(c: char) { c in SpecialChars }

  /** `/[class]/.test(s)`: some character of `s` lies in the class. */
  function Matches(s: string, inClass: char -> bool): (r: bool)
    ensures r <==> exists i :: 0 <= i < |s| && inClass(s[i])
  {
    if s == [] then false
    else if inClass(s[0]) then true
    else
      var rest := Matches(s[1..], inClass);
      assert forall i :: 1 <= i < |s| ==> s[i] == s[1..][i - 1];
      rest
  }

  /** The strength record the page computes on every change of the password field. */
  function ValidatePassword(password: string): (r: Strength)
    ensures r.hasMinLength <==> |password| >= 8
    ensures r.hasUpperCase <==> exists i :: 0 <= i < |password| && 'A' <= password[i] <= 'Z'
    ensures r.hasLowerCase <==> exists i :: 0 <= i < |password| && 'a' <= password[i] <= 'z'
    ensures r.hasNumber <==> exists i :: 0 <= i < |password| && '0' <= password[i] <= '9'
    ensures r.hasSpecialChar <==>
      exists i :: 0 <= i < |password| &&
        password[i] in {'!', '@', '#', '$', '%', '^', '&', '*'}
  {
    Strength(
      |password| >= MinLength,
      Matches(password, IsUpper),
      Matches(password, IsLower),
      Matches(password, IsDigit),
      Matches(password, IsSpecial))
  }

  /** Every check that holds of `a` also holds of `b`. */
  predicate Weaker(a: Strength, b: Strength) {
    && (a.hasMinLength ==> b.hasMinLength)
    && (a.hasUpperCase ==> b.hasUpperCase)
    && (a.hasLowerCase ==> b.hasLowerCase)
    && (a.hasNumber ==> b.hasNumber)
    && (a.hasSpecialChar ==> b.hasSpecialChar)
  }

  /** The empty password (the field's initial value) validates to the initial record. */
  lemma EmptyPasswordIsInitial()
    ensures ValidatePassword("") == InitialStrength
  {}

  /** Typing more characters never turns a satisfied check back off. */
  lemma AppendMonotone(password: string, more: string)
    ensures Weaker(ValidatePassword(password), ValidatePassword(password + more))
  {
    var longer := password + more;
    assert forall i :: 0 <= i < |password| ==> longer[i] == password[i];
  }

  /** A password meeting every requirement. */
  lemma StrongExample()
    ensures ValidatePassword("Abc12345!") == Strength(true, true, true, true, true)
  {
    var p := "Abc12345!";
    assert p[0] == 'A' && p[1] == 'b' && p[3] == '1' && p[8] == '!';
  }

  /** A password meeting only the lower-case requirement. */
  lemma WeakExample()
    ensures ValidatePassword("abc") == Strength(false, false, true, false, false)
  {
    var p := "abc";
    assert p[0] == 'a';
    assert forall i :: 0 <= i < |p| ==> p[i] in {'a', 'b', 'c'};
  }

  // ---------------------------------------------------------------------------
  // Requirement labels: `key.replace(/([A-Z])/g, " $1").toLowerCase()`
  // ---------------------------------------------------------------------------

  /** Lower-case an ASCII capital; any other character is left alone. */
  function ToLower(c: char): (r: char)
    ensures IsUpper(c) ==> r as int == c as int + 32
    ensures !IsUpper(c) ==> r == c
  {
    if IsUpper(c) then (c as int + 32) as char else c
  }

  /** The number of ASCII capitals in `s`. */
  function CountUpper(s: string): nat {
    if s == [] then 0 else (if IsUpper(s[0]) then 1 else 0) + CountUpper(s[1..])
  }

  /** The `replace` step: a space inserted before every ASCII capital. */
  function SpaceBeforeCapitals(s: string): (r: string)
    ensures |r| == |s| + CountUpper(s)
  {
    if s == [] then []
    else (if IsUpper(s[0]) then [' ', s[0]] else [s[0]]) + SpaceBeforeCapitals(s[1..])
  }

  /** The `toLowerCase` step, character by character. */
  function LowerCase(s: string): (r: string)
    ensures |r| == |s|
    ensures forall i :: 0 <= i < |s| ==> r[i] == ToLower(s[i])
  {
    if s == [] then [] else [ToLower(s[0])] + LowerCase(s[1..])
  }

  /** The text the page shows for the strength key `key`. */
  function Label(key: string): (r: string)
    ensures |r| == |key| + CountUpper(key)
    ensures forall i :: 0 <= i < |r| ==> !IsUpper(r[i])
  {
    LowerCase(SpaceBeforeCapitals(key))
  }

  /** `s` with every space removed. */
  function RemoveSpaces(s: string): (r: string)
    ensures ' ' !in r
  {
    if s == [] then [] else (if s[0] == ' ' then [] else [s[0]]) + RemoveSpaces(s[1..])
  }

  lemma LowerCaseAppend(a: string, b: string)
    ensures LowerCase(a + b) == LowerCase(a) + LowerCase(b)
  {}

  lemma {:induction false} RemoveSpacesAppend(a: string, b: string)
    ensures RemoveSpaces(a + b) == RemoveSpaces(a) + RemoveSpaces(b)
  {
    if a == [] {
      assert a + b == b;
    } else {
      assert (a + b)[1..] == a[1..] + b;
      RemoveSpacesAppend(a[1..], b);
    }
  }

  /**
    The inserted spaces are the only difference between the label and the
    lower-cased key: removing them gives back the lower-cased key, provided the
    key had no spaces of its own.
   */
  lemma {:induction false} LabelWithoutSpaces(key: string)
    requires ' ' !in key
    ensures RemoveSpaces(Label(key)) == LowerCase(key)
  {
    if key != [] {
      var c := key[0];
      var head: string := if IsUpper(c) then [' ', c] else [c];
      var tail := SpaceBeforeCapitals(key[1..]);
      assert SpaceBeforeCapitals(key) == head + tail;
      LowerCaseAppend(head, tail);
      RemoveSpacesAppend(LowerCase(head), LowerCase(tail));
      assert ToLower(c) != ' ';
      assert RemoveSpaces(LowerCase(head)) == [ToLower(c)];
      assert ' ' !in key[1..] by {
        assert forall i :: 0 <= i < |key[1..]| ==> key[1..][i] == key[i + 1];
      }
      LabelWithoutSpaces(key[1..]);
    }
  }

  lemma {:induction false} SpaceBeforeCapitalsAppend(a: string, b: string)
    ensures SpaceBeforeCapitals(a + b) == SpaceBeforeCapitals(a) + SpaceBeforeCapitals(b)
  {
    if a == [] {
      assert a + b == b;
    } else {
      assert (a + b)[1..] == a[1..] + b;
      SpaceBeforeCapitalsAppend(a[1..], b);
    }
  }

  /** A string without capitals is left alone by the `replace` step. */
  lemma {:induction false} NoCapitalsUnchanged(s: string)
    requires forall i :: 0 <= i < |s| ==> !IsUpper(s[i])
    ensures SpaceBeforeCapitals(s) == s
  {
    if s != [] {
      NoCapitalsUnchanged(s[1..]);
    }
  }

  /** The `replace` step on one camelCase word: a capital followed by no capitals. */
  lemma CapitalizedWord(c: char, w: string)
    requires IsUpper(c)
    requires forall i :: 0 <= i < |w| ==> !IsUpper(w[i])
    ensures SpaceBeforeCapitals([c] + w) == [' ', c] + w
  {
    assert ([c] + w)[1..] == w;
    NoCapitalsUnchanged(w);
  }

  /** A string without capitals is left alone by the `toLowerCase` step. */
  lemma NoCapitalsLower(s: string)
    requires forall i :: 0 <= i < |s| ==> !IsUpper(s[i])
    ensures LowerCase(s) == s
  {}

  /** The label of one camelCase word: a capital followed by no capitals. */
  lemma WordLabel(c: char, w: string)
    requires IsUpper(c)
    requires forall i :: 0 <= i < |w| ==> !IsUpper(w[i])
    ensures Label([c] + w) == [' ', ToLower(c)] + w
  {
    CapitalizedWord(c, w);
    LowerCaseAppend([' ', c], w);
    NoCapitalsLower(w);
    assert LowerCase([' ', c]) == [' ', ToLower(c)];
  }

  /** Labels, like the `replace` step, distribute over concatenation. */
  lemma LabelAppend(a: string, b: string)
    ensures Label(a + b) == Label(a) + Label(b)
  {
    SpaceBeforeCapitalsAppend(a, b);
    LowerCaseAppend(SpaceBeforeCapitals(a), SpaceBeforeCapitals(b));
  }

  /**
   * The label of a two-word camelCase key `a` + `c1 w1`. The key and its
   * label are passed in as `key` and `text`, pinned by the last two
   * requires, so that a caller with literal strings only has to show two
   * sequence equalities instead of unfolding `Label` over a literal.
   */
  lemma TwoWordLabel(a: string, c1: char, w1: string, key: string, text: string)
    requires forall i :: 0 <= i < |a| ==> !IsUpper(a[i])
    requires IsUpper(c1) && forall i :: 0 <= i < |w1| ==> !IsUpper(w1[i])
    requires key == a + ([c1] + w1)
    requires text == a + ([' ', ToLower(c1)] + w1)
    ensures Label(key) == text
  {
    NoCapitalsUnchanged(a);
    NoCapitalsLower(a);
    WordLabel(c1, w1);
    LabelAppend(a, [c1] + w1);
  }

  /** The label of a three-word camelCase key `a` + `c1 w1` + `c2 w2`; `key` and `text` as for `TwoWordLabel`. */
  lemma ThreeWordLabel(a: string, c1: char, w1: string, c2: char, w2: string, key: string, text: string)
    requires forall i :: 0 <= i < |a| ==> !IsUpper(a[i])
    requires IsUpper(c1) && forall i :: 0 <= i < |w1| ==> !IsUpper(w1[i])
    requires IsUpper(c2) && forall i :: 0 <= i < |w2| ==> !IsUpper(w2[i])
    requires key == a + ([c1] + w1) + ([c2] + w2)
    requires text == a + ([' ', ToLower(c1)] + w1) + ([' ', ToLower(c2)] + w2)
    ensures Label(key) == text
  {
    TwoWordLabel(a, c1, w1, a + ([c1] + w1), a + ([' ', ToLower(c1)] + w1));
    WordLabel(c2, w2);
    LabelAppend(a + ([c1] + w1), [c2] + w2);
  }

  /** The names of the strength record's fields, in declaration order. */
  const Keys := ["hasMinLength", "hasUpperCase", "hasLowerCase", "hasNumber", "hasSpecialChar"]

  // The five texts of the requirement list, one lemma per key.

  lemma MinLengthLabel()
    ensures Label(Keys[0]) == "has min length"
  {
    ThreeWordLabel("has", 'M', "in", 'L', "ength", Keys[0], "has min length");
  }

  lemma UpperCaseLabel()
    ensures Label(Keys[1]) == "has upper case"
  {
    ThreeWordLabel("has", 'U', "pper", 'C', "ase", Keys[1], "has upper case");
  }

  lemma LowerCaseLabel()
    ensures Label(Keys[2]) == "has lower case"
  {
    ThreeWordLabel("has", 'L', "ower", 'C', "ase", Keys[2], "has lower case");
  }

  lemma NumberLabel()
    ensures Label(Keys[3]) == "has number"
  {
    TwoWordLabel("has", 'N', "umber", Keys[3], "has number");
  }

  lemma SpecialCharLabel()
    ensures Label(Keys[4]) == "has special char"
  {
    ThreeWordLabel("has", 'S', "pecial", 'C', "har", Keys[4], "has special char");
  }

  /** The requirement list `Object.entries(passwordStrength)` renders: label and whether it is met. */
  function Requirements(s: Strength): (r: seq<(string, bool)>)
    ensures r == [
      ("has min length", s.hasMinLength),
      ("has upper case", s.hasUpperCase),
      ("has lower case", s.hasLowerCase),
      ("has number", s.hasNumber),
      ("has special char", s.hasSpecialChar)]
  {
    MinLengthLabel();
    UpperCaseLabel();
    LowerCaseLabel();
    NumberLabel();
    SpecialCharLabel();
    [ (Label(Keys[0]), s.hasMinLength),
      (Label(Keys[1]), s.hasUpperCase),
      (Label(Keys[2]), s.hasLowerCase),
      (Label(Keys[3]), s.hasNumber),
      (Label(Keys[4]), s.hasSpecialChar) ]
  }
}

=== FILE: register.dfy ===
/**
  The registration page: its form, the password-strength record kept beside
  it, and what a submission does with the server's answer.
 */
module Register {
  import opened Wrappers
  import Password

  /** The request body the page posts: the form exactly as held. */
  datatype Form = Form(email: string, password: string, confirmPassword: string)

  /** The `errors` object; only a submission ever writes it, and only its `submit` entry. */
  datatype Errors = Errors(submit: Option<string>)

  datatype Page = Page(
    form: Form,
    strength: Password.Strength,
    errors: Errors,
    showPassword: bool)

  /** The page as first rendered. */
  const InitialPage := Page(Form("", "", ""), Password.InitialStrength, Errors(None), false)

  /** The user's inputs on the page. There is no input bound to `confirmPassword`. */
  datatype Input =
    | EmailInput(value: string)
    | PasswordInput(value: string)
    | ToggleVisibility

  /** The strength record describes the password currently in the form. */
  predicate InSync(page: Page) {
    page.strength == Password.ValidatePassword(page.form.password)
  }

  /** The state change of one input event. */
  function Step(page: Page, input: Input): (r: Page)
    ensures InSync(page) ==> InSync(r)
    ensures r.errors == page.errors
    ensures r.form.confirmPassword == page.form.confirmPassword
    ensures input.EmailInput? ==> r.form == page.form.(email := input.value) && r.strength == page.strength
    ensures input.PasswordInput? ==>
      r.form == page.form.(password := input.value) && r.strength == Password.ValidatePassword(input.value)
    ensures input.ToggleVisibility? ==> r == page.(showPassword := !page.showPassword)
    ensures !input.ToggleVisibility? ==> r.showPassword == page.showPassword
  {
    match input
    case EmailInput(v) => page.(form := page.form.(email := v))
    case PasswordInput(v) => page.(form := page.form.(password := v), strength := Password.ValidatePassword(v))
    case ToggleVisibility => page.(showPassword := !page.showPassword)
  }

  /** Every sequence of inputs from the first render keeps the strength record in step with the password. */
  lemma AlwaysInSync(inputs: seq<Input>)
    ensures InSync(Run(InitialPage, inputs))
  {
    Password.EmptyPasswordIsInitial();
  }

  /** The page after a sequence of inputs, oldest first. */
  function Run(page: Page, inputs: seq<Input>): (r: Page)
    ensures InSync(page) ==> InSync(r)
    ensures r.errors == page.errors
    ensures r.form.confirmPassword == page.form.confirmPassword
    ensures r.showPassword == (page.showPassword != Odd(Toggles(inputs)))
  {
    if inputs == [] then page else Step(Run(page, inputs[..|inputs| - 1]), inputs[|inputs| - 1])
  }

  /** The number of eye-button presses among `inputs`. */
  function Toggles(inputs: seq<Input>): nat {
    if inputs == [] then 0
    else Toggles(inputs[..|inputs| - 1]) + (if inputs[|inputs| - 1].ToggleVisibility? then 1 else 0)
  }

  predicate Odd(n: nat) { n % 2 == 1 }

  /** The answer to `POST /api/auth/register`: a 2xx status, or any other status with the body's `message`. */
  datatype Reply = Accepted | Rejected(message: Option<string>)

  /** A submission's effect: the body posted, the page afterwards, and where the browser goes. */
  datatype Submission = Submission(body: Form, page: Page, navigate: Option<string>)

  /** `handleSubmit`: post the form; go to the login page on success, record the server's message otherwise. */
  function Submit(page: Page, reply: Reply): (r: Submission)
    ensures r.body == page.form
    ensures reply.Accepted? <==> r.navigate == Some("/login")
    ensures r.navigate.None? <==> reply.Rejected?
    ensures reply.Accepted? ==> r.page == page
    ensures reply.Rejected? ==> r.page == page.(errors := Errors(reply.message))
  {
    match reply
    case Accepted => Submission(page.form, page, Some("/login"))
    case Rejected(m) => Submission(page.form, page.(errors := Errors(m)), None)
  }

  /** The strength checks do not gate a submission: pages that differ only there submit alike. */
  lemma SubmitIgnoresStrength(p: Page, q: Page, reply: Reply)
    requires p.form == q.form && p.errors == q.errors
    ensures Submit(p, reply).body == Submit(q, reply).body
    ensures Submit(p, reply).navigate == Submit(q, reply).navigate
    ensures Submit(p, reply).page.errors == Submit(q, reply).page.errors
  {}

  /** In particular a password failing four of the five checks is still posted, and an accepting server lets it through. */
  lemma WeakPasswordSubmitted()
    ensures var page := Run(InitialPage, [EmailInput("a@b.c"), PasswordInput("abc")]);
      && page.strength == Password.Strength(false, false, true, false, false)
      && Submit(page, Accepted) == Submission(Form("a@b.c", "abc", ""), page, Some("/login"))
  {
    Password.WeakExample();
  }
}

=== FILE: session.dfy ===
/**
  The session credential: the browser's persisted `token` slot, how the
  dashboard turns it into an `Authorization` header, and logout.
 */
module Session {
  import opened Wrappers

  /** The `token` entry of local storage; `None` when the key is absent. */
  type Slot = Option<string>

  /** JavaScript truthiness of a string: every string but the empty one. */
  predicate Truthy(s: string) { s != "" }

  const BearerPrefix := "Bearer "

  /**
    The header value `Bearer ${localStorage.getItem("token")}`: a missing key
    reads as `null`, which the template literal spells out.
   */
  function Authorization(slot: Slot): (r: string)
    ensures |r| >= |BearerPrefix| && r[..|BearerPrefix|] == BearerPrefix
    ensures slot.Some? ==> r[|BearerPrefix|..] == slot.value
    ensures slot.None? ==> r[|BearerPrefix|..] == "null"
  {
    BearerPrefix + slot.GetOr("null")
  }

  /**
    A modelling device, not code of the application: the credential a server
    reading the header would recover, taking `Bearer null` to mean no token.
    It states what the header conveys; the "no credential" facts below hold
    relative to this reading.
   */
  function Credential(header: string): (r: Slot)
    ensures r.Some? ==> BearerPrefix + r.value == header
  {
    if |header| >= |BearerPrefix| && header[..|BearerPrefix|] == BearerPrefix && header[|BearerPrefix|..] != "null"
    then Some(header[|BearerPrefix|..])
    else None
  }

  /** The header carries the stored credential faithfully, except for a token spelled `null`. */
  lemma CredentialRoundTrip(slot: Slot)
    requires slot != Some("null")
    ensures Credential(Authorization(slot)) == slot
  {
    var h := Authorization(slot);
    assert h[..|BearerPrefix|] == BearerPrefix;
  }

  /** A stored token `null` is indistinguishable from no token at all. */
  lemma NullTokenLooksAbsent()
    ensures Authorization(Some("null")) == Authorization(None)
  {}

  /** `localStorage.removeItem("token")`. */
  function Erase(slot: Slot): (r: Slot)
    ensures r.None?
    ensures Credential(Authorization(r)).None?
  {
    None
  }

  /** `localStorage.setItem("token", token)`. */
  function Store(slot: Slot, token: string): (r: Slot)
    ensures r.Some? && r.value == token
    ensures token != "null" ==> Credential(Authorization(r)) == Some(token)
  {
    var r := Some(token);
    if token != "null" then CredentialRoundTrip(r); r else r
  }
}

=== FILE: tasks.dfy ===
/**
  The dashboard's task records, the draft of a new task, and the three
  counters the dashboard derives from the task list.
 */
module Tasks {

  datatype Priority = High | Medium | Low

  /**
    A task as the server returns it. The due date is an abstract calendar
    day (a day number); the dashboard compares dates by day only.
   */
  datatype Task = Task(
    id: int,
    title: string,
    dueDay: int,
    priority: Priority,
    subject: string,
    completed: bool)

  /** The new-task form. `dueDate` is the date input's value, empty until a date is picked. */
  datatype Draft = Draft(title: string, dueDate: string, priority: Priority, subject: string)

  /** The draft the form starts with and returns to after a successful creation. */
  const DefaultDraft := Draft("", "", Medium, "")

  /** One change event of the new-task form. */
  datatype DraftEdit =
    | EditTitle(title: string)
    | EditDueDate(dueDate: string)
    | EditPriority(priority: Priority)
    | EditSubject(subject: string)

  /** `setNewTask({ ...newTask, field: value })`: the edited field takes the value, the rest stay. */
  function ApplyEdit(d: Draft, e: DraftEdit): (r: Draft)
    ensures r.title == (if e.EditTitle? then e.title else d.title)
    ensures r.dueDate == (if e.EditDueDate? then e.dueDate else d.dueDate)
    ensures r.priority == (if e.EditPriority? then e.priority else d.priority)
    ensures r.subject == (if e.EditSubject? then e.subject else d.subject)
  {
    match e
    case EditTitle(t) => d.(title := t)
    case EditDueDate(v) => d.(dueDate := v)
    case EditPriority(p) => d.(priority := p)
    case EditSubject(s) => d.(subject := s)
  }

  /** An edit is undone by editing the same field back to its old value. */
  lemma EditUndo(d: Draft, e: DraftEdit)
    ensures var back := match e
      case EditTitle(_) => EditTitle(d.title)
      case EditDueDate(_) => EditDueDate(d.dueDate)
      case EditPriority(_) => EditPriority(d.priority)
      case EditSubject(_) => EditSubject(d.subject);
      ApplyEdit(ApplyEdit(d, e), back) == d
  {}

  /** `tasks.filter(keep)`, order preserved. */
  function Filter(tasks: seq<Task>, keep: Task -> bool): (r: seq<Task>)
    ensures |r| <= |tasks|
    ensures forall t :: t in r <==> t in tasks && keep(t)
  {
    if tasks == [] then []
    else (if keep(tasks[0]) then [tasks[0]] else []) + Filter(tasks[1..], keep)
  }

  lemma {:induction false} FilterAppend(a: seq<Task>, b: seq<Task>, keep: Task -> bool)
    ensures Filter(a + b, keep) == Filter(a, keep) + Filter(b, keep)
  {
    if a == [] {
      assert a + b == b;
    } else {
      assert (a + b)[1..] == a[1..] + b;
      FilterAppend(a[1..], b, keep);
    }
  }

  /** The filter keeps everything exactly when every task passes. */
  lemma {:induction false} FilterKeepsAll(tasks: seq<Task>, keep: Task -> bool)
    ensures |Filter(tasks, keep)| == |tasks| <==> forall i :: 0 <= i < |tasks| ==> keep(tasks[i])
  {
    if tasks != [] {
      FilterKeepsAll(tasks[1..], keep);
      assert forall i :: 1 <= i < |tasks| ==> tasks[i] == tasks[1..][i - 1];
    }
  }

  /** The test the "Due Today" counter applies to each task. */
  function DueOn(today: int): Task -> bool {
    (t: Task) => t.dueDay == today
  }

  /** The test the "Completed" counter applies to each task. */
  predicate IsCompleted(t: Task) { t.completed }

  /** A task not yet completed. */
  predicate IsOpen(t: Task) { !t.completed }

  /** Every task is kept by exactly one of two complementary filters. */
  lemma {:induction false} FilterSplits(tasks: seq<Task>)
    ensures |Filter(tasks, IsCompleted)| + |Filter(tasks, IsOpen)| == |tasks|
  {
    if tasks != [] {
      FilterSplits(tasks[1..]);
    }
  }

  /** The "Total Tasks" counter: every task is either completed or still open. */
  function Total(tasks: seq<Task>): (n: nat)
    ensures n == |Filter(tasks, IsCompleted)| + |Filter(tasks, IsOpen)|
  {
    FilterSplits(tasks);
    |tasks|
  }

  /** The "Due Today" counter: tasks whose due day is `today`. */
  function DueToday(tasks: seq<Task>, today: int): (n: nat)
    ensures n <= Total(tasks)
  {
    |Filter(tasks, DueOn(today))|
  }

  /** The "Completed" counter. */
  function Completed(tasks: seq<Task>): (n: nat)
    ensures n <= Total(tasks)
  {
    |Filter(tasks, IsCompleted)|
  }

  /** One more task adds one to "Due Today" exactly when it is due today; a day before or after does not count. */
  lemma DueTodayAppend(tasks: seq<Task>, t: Task, today: int)
    ensures DueToday(tasks + [t], today) == DueToday(tasks, today) + (if t.dueDay == today then 1 else 0)
  {
    FilterAppend(tasks, [t], DueOn(today));
  }

  /** One more task adds one to "Completed" exactly when it is completed. */
  lemma CompletedAppend(tasks: seq<Task>, t: Task)
    ensures Completed(tasks + [t]) == Completed(tasks) + (if t.completed then 1 else 0)
  {
    FilterAppend(tasks, [t], IsCompleted);
  }

  /** "Completed" equals "Total Tasks" exactly when every task is completed. */
  lemma AllCompleted(tasks: seq<Task>)
    ensures Completed(tasks) == Total(tasks) <==> forall i :: 0 <= i < |tasks| ==> tasks[i].completed
  {
    FilterKeepsAll(tasks, IsCompleted);
  }

  /** "Completed" is zero exactly when no task is completed. */
  lemma NoneCompleted(tasks: seq<Task>)
    ensures Completed(tasks) == 0 <==> forall i :: 0 <= i < |tasks| ==> !tasks[i].completed
  {
    var done := Filter(tasks, IsCompleted);
    if Completed(tasks) != 0 {
      assert done[0] in done;
    }
    if exists i :: 0 <= i < |tasks| && tasks[i].completed {
      var i :| 0 <= i < |tasks| && tasks[i].completed;
      assert tasks[i] in done;
    }
  }
}

=== FILE: wrappers.dfy ===
/** The optional-value wrapper shared by every page of the application. */
module Wrappers {

  /** A value that may be absent: JavaScript's `null`/`undefined` on one side, a value on the other. */
  datatype Option<+T> = None | Some(value: T) {

    /** The value, or `default` when absent (the `x ?? default` idiom). */
    function GetOr(default: T): T {
      match this
      case Some(v) => v
      case None => default
    }
  }
}
